=== FILE: README.md ===
# Portfolio page interactivity, modelled in Dafny

This project models the logic in `script.js`, the one browser script of a personal portfolio page. The model leaves out the DOM and keeps the small state machines the script drives:

- **Typewriter** (`typewriter.dfy`). The hero section types and deletes a rotating list of shell commands. One call of `typeText` is the pure function `Step`: it returns the rendered text, the next `(phraseIndex, charIndex, isDeleting)` and the `setTimeout` delay. The self-rescheduling loop is `Run`, which applies `Step` repeatedly. The lemmas prove the bounds invariant, the delay and transition rules, and the exact trace of one type-then-delete cycle against a reference description. They also prove that phrases are visited in order, cyclically.
- **Navigation highlighter** (`navigation.dfy`). `updateActiveNav` marks a section's nav link active when the scroll offset lies in the window `(offsetTop-100, offsetTop-100+offsetHeight]`. It also puts a shadow on the navbar past 50px. The lemmas prove that each section is decided on its own and that disjoint windows light at most one link. They also prove that a stacked page layout has disjoint windows, and that overlapping windows can light two links.
- **Debounce** (`debounce.dfy`). The trailing-edge `debounce(func, wait)` is modelled over the host's timer table. The lemmas prove that at most one run is ever pending, that a stale timer does nothing, and that `func` always receives the arguments of the most recent call.
- **Theme** (`theme.dfy`). The page loads the saved theme (default `'light'`) and toggles between themes, persisting to storage. Storage is a `map<string, string>` (`storage.dfy`).
- **Mobile menu** (`menu.dfy`) and **keyboard shortcuts** (`keyboard.dfy`). The menu button, nav links and Escape keep the two `active` flags in sync. Ctrl/Cmd+K performs exactly one theme toggle.
- **Music flags** (`music.dfy`). This covers parsing of the saved `musicEnabled` value, `toggleMusic`, the `isPlaying` guards of `startMusicPlayback`/`stopMusicPlayback`, and the first-gesture listeners of `initStrudelBackground`. Calls into the audio library are recorded as opaque effects. Whether the engine comes up is a parameter.

Points where the code behaves differently from what a reader might expect, and which the model follows:

- The nav window is `(top-100, top-100+height]` (script.js:79): open at the lower bound and closed at the upper one.
- `toggleMusic` calls `initMusic` without the `musicInitialized` guard (script.js:681). `Music.InitMayRunTwice` shows that one click on the music button, with music saved as off, initialises the engine twice.
- A failed `initMusic` only logs the error and leaves `musicEnabled` as it was (script.js:515-517). `Music.InitMusic` follows this.
- Every theme value other than `'dark'` toggles to `'dark'` (script.js:16), so a stored value such as `'blue'` is not restored by two toggles (`Theme.ToggleTwiceFromOther`).
- `charIndex` stays within `[0, len]`, and the code keeps a sharper bound that depends on the mode. `Typewriter.Valid` states it.

## Model

| member | source | states |
|---|---|---|
| Typewriter.Prefix | script.js:121-125 | `substring(0, end)` returns a prefix of the phrase whose length is `end` clamped into `[0, len]` |
| Typewriter.Step | script.js:117-137 | Each tick keeps `phraseIndex` in range and preserves the bounds invariant. The text shown is the first `charIndex` characters (after the tick) of the phrase that was current at the start of the tick, and `charIndex` moves by exactly one. The phrase changes only on the 500 pause, and then to the next phrase, wrapping to 0 after the last |
| Typewriter.StepDelays | script.js:117-137 | From a valid state the text is exactly the phrase cut at the new `charIndex`. The delay is 2000 exactly when typing has just completed the phrase, 500 exactly when deleting has just emptied it, 50 for other deletions and 100 for other typing. `isDeleting` is set exactly on the 2000 and 50 delays |
| Typewriter.Run | script.js:112-139 | The self-rescheduling loop, any number of ticks long, never leaves the phrase list and preserves the bounds invariant |
| Typewriter.AlwaysValid | script.js:112-137 | Every state reached from the initial `(0, 0, false)` satisfies the bounds invariant |
| Typewriter.CycleFollowsReference | script.js:117-137 | Starting phrase `p` of length `L`, tick `i` renders the first `i+1` characters while typing and the first `2L-1-i` while deleting. Its delays are 100, then 2000, then 50, then 500, and it leaves the state given by the reference cycle |
| Typewriter.FullCycle | script.js:130-137 | Exactly `2L` ticks after `(p, 0, false)` the state is `((p+1) mod n, 0, false)`, and no earlier state of the cycle has another `phraseIndex` |
| Typewriter.CyclePhraseIsMod | script.js:133-135 | Advancing one phrase per cycle and wrapping after the last phrase puts cycle `k` on phrase `k mod n` |
| Typewriter.VisitsInOrder | script.js:112-135 | From the initial state, cycle `k` begins at that cycle's phrase (`k mod n` by `CyclePhraseIsMod`) with nothing typed, so phrases are visited in list order, cyclically |
| Typewriter.PhraseDuringCycle | script.js:130-135 | Every tick of cycle `k` works on that cycle's phrase, `k mod n` |
| Typewriter.TwoPhraseExample | script.js:117-139 | With phrases `["ab", "c"]` the ticks show "a", "ab" (2000), "a", "" (500), "c" (2000), "" (500) |
| Typewriter.PhrasesWellFormed | script.js:104-110 | The page's five phrases form a non-empty list of non-empty strings |
| Navigation.ActiveFlags | script.js:73-84 | One flag per section. Flag `i` is set exactly when the scroll offset lies in section `i`'s window `(top-100, top-100+height]` |
| Navigation.UpdateActiveNav | script.js:70-92 | The link of section `i` is active iff `offsetTop-100 < scrollY <= offsetTop-100+offsetHeight`. The navbar shadow is on iff `scrollY > 50` |
| Navigation.DisjointMeansNoCommonOffset | script.js:79 | The bound test for disjoint windows holds exactly when no scroll offset lies in both windows |
| Navigation.AtMostOneActive | script.js:73-84 | When the sections' windows are pairwise disjoint, at most one link is active at any scroll offset |
| Navigation.StackedIsDisjoint | script.js:74-79 | Sections stacked down the page with non-negative heights have pairwise disjoint windows |
| Navigation.DecidedPerSection | script.js:73-84 | Each section is decided on its own: the flags of a concatenated list are the concatenation of the flags |
| Navigation.OverlapMayHighlightTwo | script.js:79 | Overlapping windows can make two links active at once |
| Navigation.WindowBounds | script.js:79 | The window excludes its lower bound `top-100` and includes its upper bound `top-100+height` |
| Debounce.ClearTimeout | script.js:55-58 | `clearTimeout` removes exactly the named timer and does nothing for `undefined` |
| Debounce.Invoke | script.js:51-60 | A call clears the pending timer and schedules a fresh one with this call's arguments and delay `wait`. Afterwards exactly that one run is pending, and `wait` stays the value given to `debounce` |
| Debounce.Fire | script.js:54-57 | A cleared or stale timer does nothing. A live timer runs `func` once with the arguments it was scheduled with, and nothing stays pending. `wait` and the `timeout` variable are unchanged |
| Debounce.AtMostOnePending | script.js:58-59 | Under the debounce invariant, at most one run is pending |
| Debounce.Replay | script.js:51-61 | Any sequence of calls and timer firings preserves the debounce invariant and keeps `wait` |
| Debounce.PendingHasLatestArgs | script.js:51-61 | From `debounce(func, wait)`, any pending run carries the arguments of the most recent call and is scheduled after `wait` |
| Debounce.FuncGetsLatestArgs | script.js:54-56 | Whenever `func` runs, it receives the arguments of the most recent call |
| Debounce.AlwaysAtMostOnePending | script.js:51-61 | After any sequence of events, at most one run is pending |
| Debounce.BurstRunsOnce | script.js:51-61 | After a burst of calls, firing the pending timer runs `func` exactly once, with the last call's arguments, and leaves nothing pending |
| Theme.OrElse | script.js:10 | JavaScript `value \|\| fallback` on a stored string: an absent or empty value gives the fallback |
| Theme.Load | script.js:10-11 | The initial theme is the stored `theme` value, or `'light'` when it is absent or empty. It is never empty, and storage is untouched |
| Theme.Toggle | script.js:14-21 | `'dark'` becomes `'light'` and any other value becomes `'dark'`, so the theme always changes. The attribute and storage hold the same new value, and no other key changes |
| Theme.ReloadRestoresToggle | script.js:10-19 | A page load after a toggle shows the toggled theme: the stored value is read back as the attribute |
| Theme.ToggleTwice | script.js:15-19 | Toggling twice from `'light'` or `'dark'` restores the theme and persists it. It is the identity when storage already held the theme |
| Theme.ToggleTwiceFromOther | script.js:16 | A theme other than `'light'` or `'dark'` ends as `'light'` after two toggles |
| Theme.ToggleParity | script.js:14-21 | After `k >= 1` clicks the theme is `'dark'` exactly when the parity of `k` and whether it started non-dark agree. The theme is always `'light'` or `'dark'` and is persisted |
| Menu.ClickToggle | script.js:35-38 | The button click opens a closed menu and closes an open one. It flips the button too and keeps the flags in sync |
| Menu.ClickLink | script.js:40-45 | A nav-link click leaves the menu closed with both flags cleared |
| Menu.PressEscape | script.js:380-383 | Escape closes an open menu and does nothing when the menu is closed |
| Menu.StaysSynced | script.js:35-45 | If the button and menu flags agree, they still agree after any sequence of button clicks, link clicks and Escape presses |
| Menu.AlwaysSynced | script.js:35-45 | From page load, where neither element is active, the button and menu flags agree after any sequence of button clicks, link clicks and Escape presses |
| Menu.ToggleTwice | script.js:35-38 | Two clicks on the button restore the menu state |
| Keyboard.OnKeyDown | script.js:378-390 | Ctrl/Cmd+K performs exactly one theme toggle and prevents the default action. No other key changes the theme. Only Escape touches the menu: it closes an open menu and clears the button's `active` flag, leaves a closed menu alone, and keeps the flags in sync |
| Keyboard.UpperCaseKIgnored | script.js:386 | The shortcut tests for the exact key `"k"`, so `"K"` leaves the theme alone |
| Keyboard.ShortcutTwice | script.js:386-389 | Pressing the shortcut twice from `'light'` or `'dark'` restores the theme |
| Music.Decode | script.js:419-422 | With no stored value `musicEnabled` keeps its default. With a stored value it is true iff the value is exactly `"true"` |
| Music.DecodeEncode | script.js:419-422 | The string that `toggleMusic` stores parses back to the same flag |
| Music.DecodeIsExact | script.js:421 | Stored values such as `"TRUE"`, `"1"` or `""` mean off |
| Music.StartPlayback | script.js:619-622 | It is a no-op with no players or when already playing. Otherwise it starts the player and sets `isPlaying`, leaving the other flags alone |
| Music.StopPlayback | script.js:649-652 | It is a no-op unless playing. Otherwise it stops the player and clears `isPlaying`. Either way nothing plays afterwards |
| Music.InitMusic | script.js:465-517 | Each call is recorded. On failure nothing else changes. On success the players are replaced and playback runs iff it already ran or music is enabled. The only further effect is one player start, which happens exactly when music is enabled and was not playing |
| Music.ToggleMusic | script.js:672-688 | `musicEnabled` is negated and its string form is stored. Switched off, a playing player is stopped, and nothing is called otherwise, so nothing plays. Switched on with players, playback runs with no new initialisation, and a stopped player is started. Switched on without players, `initMusic` is called |
| Music.ReloadRestoresToggle | script.js:419-422 | A reload after a toggle comes back with the toggled preference |
| Music.ToggleTwice | script.js:672-674 | Toggling twice restores the preference, also on a first visit with nothing saved, and leaves it saved. When it was already saved, storage is as before |
| Music.Boot | script.js:409-449 | Without the audio library, storage is not read and no listener is attached. Otherwise music is enabled iff no value is stored or the stored value is `"true"`, and the click, keydown and touchstart listeners are attached (see `Music.FirstGestureStartsEngine`). Nothing plays yet |
| Music.StartMusic | script.js:436-444 | On the first gesture while music is enabled, the engine is initialised if that has not been done yet. Otherwise it is a no-op |
| Music.ButtonInit | script.js:452-460 | The button's second listener initialises the engine only if `musicInitialized` is unset, and then sets it |
| Music.Gestured | script.js:436-449 | Each gesture listener fires at most once and then detaches. An attached listener runs `startMusic`. The first gesture while music is enabled marks the user as interacted and initialises the engine unless that was already done (see `Music.FirstGestureStartsEngine`). Once the user has interacted, or while music is disabled, the listener only detaches |
| Music.FirstGestureStartsEngine | script.js:419-449 | After page load with music enabled or nothing saved, the first click, key press or touch initialises the engine, and a later gesture leaves the music alone |
| Music.Apply | script.js:428-460 | Without the audio library no event has any effect. Every event keeps music silent unless it is enabled and has a player |
| Music.NeverPlaysWhenDisabled | script.js:619-688 | Over any sequence of button clicks and gestures, music plays only while it is enabled and a player exists |
| Music.PlaysOnlyWhenEnabled | script.js:405-407 | From any page load, music plays only while it is enabled |
| Music.ButtonClickToggles | script.js:672-674 | A click on the music button flips the preference in both directions, stores its new string form and touches no other key |
| Music.ButtonOffSilences | script.js:672-687 | A button click that switches music off leaves nothing playing |
| Music.InitMayRunTwice | script.js:672-688 | With music saved as off, one click on the music button calls `initMusic` twice, once from `toggleMusic` and once from the button's second listener. The player starts once, and afterwards music is on and playing with two players. The order of the calls is not stated |

## Left out

- DOM access, CSS style strings, theme and music icon glyphs (`updateThemeIcon`, `updateMusicState`) and console logging. DOM-derived values (`scrollY`, offsets, heights, stored strings) are parameters.
- Wall-clock time. `setTimeout` delays are returned integers. The 1000 ms delay before the first tick and the unused initial `typingSpeed` are not modelled, and neither is the order in which the host fires timers. The host fires a debounce timer by naming its id.
- The scroll wiring of the debounce. The debounced `updateActiveNav` ignores its arguments and reads the scroll offset when it runs, so the highlight depends on the offset at firing time. `Navigation.UpdateActiveNav` takes that offset as a parameter.
- A section with no matching nav link. The optional lookup only skips the update, and the model still computes that section's flag.
- Fade-in and progress-bar observers, parallax and the cursor follower, lazy image loading, and the contact-form simulation. These are browser callbacks, floating-point easing and timer side effects with no state machine.
- All audio synthesis, loops and transport handling inside the audio library. They are opaque effects. `musicPlayers` is modelled by its length only.
- Music.InitMusic: it is atomic in the model, but the source is `async`, so other events can interleave across its `await`s. The model does not cover that interleaving. Within one click on the music button, both `initMusic` calls start before either finishes (script.js:457, 473, 681). The model runs them one after the other, so its effect trace lists the player start between the two engine starts, where the page starts the player after both. `Music.InitMayRunTwice` therefore states only which effects happen and the final flags. The `Tone.Player` branch that defers `start` until the audio has loaded is also left out, because the page never creates such a player.
- Music.Apply: it uses one engine outcome for every `initMusic` call within one event, and it assumes the music button is on the page.
- The synthetic click that Ctrl/Cmd+K dispatches on the theme button also bubbles to the document's one-shot click listener of the music code. The keyboard and music models do not compose these two listeners.
- The `DOMContentLoaded` handler, apart from the music start-up it triggers (`Music.Boot`).
- The scroll offset is an integer in the model, while `window.pageYOffset` (script.js:71) is a double. The window bounds are integer sums of layout offsets, so an offset `y` lies in a window exactly when its ceiling does, and the results carry over.
- `localStorage.getItem` and `setItem` (script.js:10, 19, 419, 674) can throw in a browser: SecurityError when storage is blocked, QuotaExceededError when it is full. The code does not catch these. `Storage` is total and never fails.
- JavaScript `length` and `substring` count UTF-16 code units (script.js:121, 125, 130), while a Dafny `string` counts characters. The typewriter lemmas hold for any phrase list measured in characters. They agree with the page for phrases without characters outside the Basic Multilingual Plane, which holds for the page's five ASCII phrases.

=== FILE: debounce.dfy ===
/**
  The trailing-edge `debounce(func, wait)` helper of script.js.

  The debounced function keeps one variable, `timeout`, the id of the last timer
  it scheduled. Every call clears that timer and schedules a fresh one that will
  call `func` with this call's arguments. The host decides when a timer fires.
  Here the host's timer table is a map from timer ids to scheduled runs, and
  firing a timer is an event that names the id. Wall-clock time is not modelled.
*/
module Debounce {
  import opened Options

  /** A scheduled run of `later`: the arguments it will pass to `func`, and its `setTimeout` delay. */
  datatype Timer<A> = Timer(args: A, delay: int)

  /**
    One debounced function: `wait`, its `timeout` variable (`undefined` is None),
    the host's live timers created by this function, and the id the host hands
    out next.
  */
  datatype Debouncer<A> = Debouncer(wait: int, timeout: Option<nat>, timers: map<nat, Timer<A>>, nextId: nat)

  /** What a timer firing does: the new state, and the arguments `func` ran with, if it ran. */
  datatype Fired<A> = Fired(state: Debouncer<A>, ran: Option<A>)

  /** Events the debounced function sees: a call with arguments, or the host firing timer `id`. */
  datatype Event<A> = Call(args: A) | Elapse(id: nat)

  /** `debounce(func, wait)`: no timer yet. Host timer ids are positive. */
  function Create<A>(wait: int): Debouncer<A> {
    Debouncer(wait, None, map[], 1)
  }

  /** `clearTimeout(t)`: removes that timer from the table if it is live; `clearTimeout(undefined)` does nothing. */
  function ClearTimeout<A>(timers: map<nat, Timer<A>>, t: Option<nat>): (r: map<nat, Timer<A>>)
    ensures t.None? ==> r == timers
    ensures t.Some? ==> r.Keys == timers.Keys - {t.value}
    ensures forall id :: id in r ==> id in timers && r[id] == timers[id]
  {
    match t
    case None => timers
    case Some(id) => timers - {id}
  }

  /** The debounce invariant: at most one run is pending, and it is the one `timeout` names. */
  predicate Good<A>(d: Debouncer<A>) {
    && (forall id :: id in d.timers ==> d.timeout == Some(id) && id < d.nextId)
    && (d.timeout.Some? ==> d.timeout.value < d.nextId)
  }

  /** At most one run is pending. */
  lemma AtMostOnePending<A>(d: Debouncer<A>)
    requires Good(d)
    ensures |d.timers| <= 1
  {
    if d.timers.Keys != {} {
      var id :| id in d.timers.Keys;
      assert d.timers.Keys == {id};
    }
  }

  /** One call of the debounced function: clear the pending timer, then schedule a new one with these arguments. */
  function Invoke<A>(d: Debouncer<A>, args: A): (r: Debouncer<A>)
    ensures Good(d) ==> Good(r)
    // `wait` is the closure's constant
    ensures r.wait == d.wait
    // exactly this call's run is pending afterwards, after the debounce delay
    ensures r.timeout.Some? && r.timeout.value in r.timers
    ensures Good(d) ==> r.timers.Keys == {r.timeout.value}
    ensures r.timers[r.timeout.value] == Timer(args, d.wait)
    // the new timer is not one of the old ones
    ensures Good(d) ==> r.timeout.value !in d.timers
  {
    var cleared := ClearTimeout(d.timers, d.timeout);
    var id := d.nextId;
    d.(timeout := Some(id), timers := cleared[id := Timer(args, d.wait)], nextId := id + 1)
  }

  /** The host fires timer `id`: if it is still live, `later` clears `timeout` and calls `func`. */
  function Fire<A>(d: Debouncer<A>, id: nat): (r: Fired<A>)
    ensures Good(d) ==> Good(r.state)
    // `later` neither changes `wait` nor resets the `timeout` variable
    ensures r.state.wait == d.wait && r.state.timeout == d.timeout
    // a stale or cleared timer does nothing
    ensures id !in d.timers ==> r == Fired(d, None)
    // a live timer runs `func` once with the arguments it was scheduled with, and nothing stays pending
    ensures id in d.timers ==> r.ran == Some(d.timers[id].args)
    ensures Good(d) && id in d.timers ==> r.state.timers == map[]
  {
    if id !in d.timers then Fired(d, None)
    else
      var t := d.timers[id];
      var remaining := d.timers - {id};
      Fired(d.(timers := ClearTimeout(remaining, d.timeout)), Some(t.args))
  }

  /** One event: a call schedules a run; the host firing a timer may run `func`. */
  function Apply<A>(d: Debouncer<A>, e: Event<A>): Fired<A> {
    match e
    case Call(args) => Fired(Invoke(d, args), None)
    case Elapse(id) => Fire(d, id)
  }

  /** The state after a sequence of events, processed in order. */
  function Replay<A>(d: Debouncer<A>, events: seq<Event<A>>): (r: Debouncer<A>)
    ensures Good(d) ==> Good(r)
    ensures r.wait == d.wait
    decreases |events|
  {
    if events == [] then d
    else Apply(Replay(d, events[..|events| - 1]), events[|events| - 1]).state
  }

  /** The arguments of the most recent call among `events`, if any. */
  function LastArgs<A>(events: seq<Event<A>>): Option<A>
    decreases |events|
  {
    if events == [] then None
    else if events[|events| - 1].Call? then Some(events[|events| - 1].args)
    else LastArgs(events[..|events| - 1])
  }

  /** Every pending run carries the arguments `last` and is scheduled after `wait`. */
  ghost predicate PendingCarries<A>(d: Debouncer<A>, last: Option<A>, wait: int) {
    forall id :: id in d.timers ==> last == Some(d.timers[id].args) && d.timers[id].delay == wait
  }

  /** The run that is pending, if any, carries the arguments of the most recent call and the delay
      given to `debounce`. */
  lemma {:induction false} PendingHasLatestArgs<A>(wait: int, events: seq<Event<A>>)
    ensures PendingCarries(Replay(Create<A>(wait), events), LastArgs(events), wait)
    decreases |events|
  {
    if events != [] {
      var init := events[..|events| - 1];
      PendingHasLatestArgs<A>(wait, init);
      assert Good(Create<A>(wait));
      var prev := Replay(Create<A>(wait), init);
      assert Good(prev);
      match events[|events| - 1]
      case Call(args) =>
        assert Replay(Create<A>(wait), events) == Invoke(prev, args);
      case Elapse(id) =>
        assert LastArgs(events) == LastArgs(init);
        assert Replay(Create<A>(wait), events) == Fire(prev, id).state;
    }
  }

  /** Whenever `func` runs, it receives the arguments of the most recent call. */
  lemma FuncGetsLatestArgs<A>(wait: int, events: seq<Event<A>>, id: nat)
    ensures var r := Fire(Replay(Create<A>(wait), events), id);
      r.ran.Some? ==> LastArgs(events) == r.ran
  {
    PendingHasLatestArgs<A>(wait, events);
  }

  /** Starting from `debounce(func, wait)`, at most one run is ever pending. */
  lemma AlwaysAtMostOnePending<A>(wait: int, events: seq<Event<A>>)
    ensures |Replay(Create<A>(wait), events).timers| <= 1
  {
    AtMostOnePending(Replay(Create<A>(wait), events));
  }

  /** A burst of calls followed by the pending timer firing runs `func` exactly once, with the last call's arguments. */
  lemma BurstRunsOnce<A>(d: Debouncer<A>, burst: seq<A>)
    requires Good(d) && |burst| > 0
    ensures var e := Calls(d, burst);
      && e.timeout.Some? && e.timers.Keys == {e.timeout.value}
      && Fire(e, e.timeout.value) == Fired(e.(timers := map[]), Some(burst[|burst| - 1]))
  {
    var e := Calls(d, burst);
    var id := e.timeout.value;
    assert e.timers - {id} == map[];
  }

  /** The state after calling the debounced function once per element of `burst`, with nothing firing in between. */
  function Calls<A>(d: Debouncer<A>, burst: seq<A>): (r: Debouncer<A>)
    ensures Good(d) ==> Good(r)
    ensures r.wait == d.wait
    decreases |burst|
  {
    if burst == [] then d else Invoke(Calls(d, burst[..|burst| - 1]), burst[|burst| - 1])
  }
}

=== FILE: keyboard.dfy ===
/**
  The page's keyboard shortcuts (the `keydown` listener of script.js):
  Escape closes the mobile menu when it is open, and Ctrl+K or Cmd+K clicks
  the theme toggle button after suppressing the browser's default action.
*/
module Keyboard {
  import Menu
  import Theme

  /** The parts of a `KeyboardEvent` the listener reads. */
  datatype KeyEvent = KeyEvent(key: string, ctrlKey: bool, metaKey: bool)

  /** The page state the listener can change. */
  datatype Ui = Ui(menu: Menu.State, page: Theme.Page)

  /** The listener's effect: the new page state, and whether `preventDefault` was called. */
  datatype Handled = Handled(ui: Ui, defaultPrevented: bool)

  /** Ctrl or Cmd together with the key reported exactly as "k". */
  predicate IsThemeShortcut(e: KeyEvent) {
    (e.ctrlKey || e.metaKey) && e.key == "k"
  }

  /** One `keydown` event. `themeToggle.click()` runs the toggle button's click handler once. */
  function OnKeyDown(ui: Ui, e: KeyEvent): (r: Handled)
    // the theme changes exactly when the shortcut is pressed, and then by exactly one toggle
    ensures IsThemeShortcut(e) ==> r.ui.page == Theme.Toggle(ui.page)
    ensures !IsThemeShortcut(e) ==> r.ui.page == ui.page
    ensures r.defaultPrevented <==> IsThemeShortcut(e)
    // only Escape touches the menu, and an open menu is closed by it
    ensures e.key != "Escape" ==> r.ui.menu == ui.menu
    ensures e.key == "Escape" ==> !Menu.IsOpen(r.ui.menu)
    ensures e.key == "Escape" && !Menu.IsOpen(ui.menu) ==> r.ui.menu == ui.menu
    ensures e.key == "Escape" && Menu.IsOpen(ui.menu) ==> !r.ui.menu.toggleActive
    ensures Menu.Synced(ui.menu) ==> Menu.Synced(r.ui.menu)
  {
    var menu := if e.key == "Escape" then Menu.PressEscape(ui.menu) else ui.menu;
    var shortcut := (e.ctrlKey || e.metaKey) && e.key == "k";
    var page := if shortcut then Theme.Toggle(ui.page) else ui.page;
    Handled(Ui(menu, page), shortcut)
  }

  /** The shortcut is case-sensitive: with Shift held the key is "K" and nothing happens to the theme. */
  lemma UpperCaseKIgnored(ui: Ui)
    ensures OnKeyDown(ui, KeyEvent("K", true, false)).ui.page == ui.page
  {
  }

  /** Pressing the shortcut twice from 'light' or 'dark' restores the theme. */
  lemma ShortcutTwice(ui: Ui, e: KeyEvent)
    requires IsThemeShortcut(e)
    requires ui.page.theme == Theme.Light || ui.page.theme == Theme.Dark
    ensures OnKeyDown(OnKeyDown(ui, e).ui, e).ui.page.theme == ui.page.theme
  {
    Theme.ToggleTwice(ui.page);
  }
}

=== FILE: menu.dfy ===
/**
  The mobile navigation menu of script.js.

  Two elements carry an `active` class: the hamburger button (`menuToggle`) and
  the menu itself (`navMenu`). Three handlers change them: a click on the
  button flips both, a click on any nav link clears both, and the Escape key
  clears both when the menu is open.
*/
module Menu {

  /** The `active` class of the button and of the menu. */
  datatype State = State(toggleActive: bool, navActive: bool)

  /** Events that reach the menu. */
  datatype Event = ToggleClick | LinkClick | EscapeKey

  /** Neither element is active when the page loads. */
  const Initial := State(false, false)

  /** The button shows the same state as the menu. */
  predicate Synced(s: State) {
    s.toggleActive == s.navActive
  }

  /** The menu is open when `navMenu` carries `active` (the condition the Escape handler tests). */
  predicate IsOpen(s: State) {
    s.navActive
  }

  /** Click on the hamburger button: `classList.toggle('active')` on both elements. */
  function ClickToggle(s: State): (r: State)
    ensures IsOpen(r) == !IsOpen(s)
    ensures r.toggleActive == !s.toggleActive
    ensures Synced(r) <==> Synced(s)
  {
    State(!s.toggleActive, !s.navActive)
  }

  /** Click on a nav link: `classList.remove('active')` on both elements. */
  function ClickLink(s: State): (r: State)
    ensures !IsOpen(r) && Synced(r)
    ensures !r.toggleActive
  {
    State(false, false)
  }

  /** Escape key: closes the menu when it is open, and does nothing otherwise. */
  function PressEscape(s: State): (r: State)
    ensures !IsOpen(s) ==> r == s
    ensures IsOpen(s) ==> !IsOpen(r) && !r.toggleActive
    ensures !IsOpen(r)
    ensures Synced(s) ==> Synced(r)
  {
    if s.navActive then State(false, false) else s
  }

  /** The handler an event triggers. */
  function Apply(s: State, e: Event): State {
    match e
    case ToggleClick => ClickToggle(s)
    case LinkClick => ClickLink(s)
    case EscapeKey => PressEscape(s)
  }

  /** The state after a sequence of events, in order. */
  function Replay(s: State, events: seq<Event>): State
    decreases |events|
  {
    if events == [] then s else Replay(Apply(s, events[0]), events[1..])
  }

  /** Whatever sequence of clicks and key presses happens, a synced pair of flags stays synced. */
  lemma {:induction false} StaysSynced(s: State, events: seq<Event>)
    requires Synced(s)
    ensures Synced(Replay(s, events))
    decreases |events|
  {
    if events != [] {
      StaysSynced(Apply(s, events[0]), events[1..]);
    }
  }

  /** From page load, whatever the user does, the button and the menu agree. */
  lemma AlwaysSynced(events: seq<Event>)
    ensures Synced(Replay(Initial, events))
  {
    StaysSynced(Initial, events);
  }

  /** Clicking the button twice restores the state. */
  lemma ToggleTwice(s: State)
    ensures ClickToggle(ClickToggle(s)) == s
  {
  }
}

=== FILE: music.dfy ===
/**
  The background-music flags of script.js.

  The audio itself is produced by a third-party synthesis library and is opaque
  here: starting the audio engine, starting a player and stopping it are recorded
  as `Effect`s, and whether the engine comes up is a parameter (`ok`). What is
  modelled is the flag logic around it: the `musicEnabled` preference and its
  storage form, the `isPlaying` guards of start and stop, the toggle button, and
  the listeners that start the music on the first user gesture.
*/
module Music {
  import opened Options
  import opened Storage

  const MusicKey := "musicEnabled"

  /** The opaque calls into the audio library. */
  datatype Effect =
    | InitEngine   // `initMusic()` was called
    | StartPlayer  // `player.start()`
    | StopPlayer   // `player.stop()`, and the transport if it is running

  /**
    The music globals: `musicEnabled`, the number of entries in `musicPlayers`,
    `isPlaying`, storage, and the calls made into the audio library so far.
  */
  datatype Music = Music(enabled: bool, playerCount: nat, isPlaying: bool, store: Store, effects: seq<Effect>)

  /** The user gestures the start-up listeners wait for. */
  datatype Gesture = Click | KeyDown | TouchStart

  /**
    `initStrudelBackground`'s state: the music globals, whether its listeners were
    attached at all (they are not when the audio library is missing), its
    `userInteracted` and `musicInitialized` flags, and which one-shot gesture
    listeners are still attached.
  */
  datatype Session = Session(music: Music, wired: bool, userInteracted: bool, musicInitialized: bool, armed: set<Gesture>)

  /** Events the music code reacts to: a click on the music button, or a gesture elsewhere on the page.
      `ok` says whether the audio engine comes up if it is initialised during the event. */
  datatype Event = ButtonClick(ok: bool) | PageGesture(g: Gesture, ok: bool)

  /** `Boolean.prototype.toString`. */
  function Encode(b: bool): string {
    if b then "true" else "false"
  }

  /** The saved-state parsing: with a stored value, music is on exactly when it is the string "true";
      with none, the current value stays. */
  function Decode(saved: Option<string>, current: bool): (r: bool)
    ensures saved.None? ==> r == current
    ensures saved.Some? ==> (r <==> saved.value == "true")
  {
    if saved != None then saved.value == "true" else current
  }

  /** What `Encode` writes, `Decode` reads back. */
  lemma DecodeEncode(b: bool, current: bool)
    ensures Decode(Some(Encode(b)), current) == b
  {
  }

  /** Only the exact string "true" turns music on. */
  lemma DecodeIsExact(current: bool)
    ensures !Decode(Some("TRUE"), current) && !Decode(Some("1"), current) && !Decode(Some(""), current)
  {
  }

  /** The globals as declared: music enabled, no players, not playing. */
  function Initial(store: Store): Music {
    Music(true, 0, false, store, [])
  }

  /** Nothing plays unless music is enabled and there is a player. */
  predicate Quiet(m: Music) {
    m.isPlaying ==> m.enabled && m.playerCount > 0
  }

  /** `startMusicPlayback`: a no-op without players or when already playing; otherwise starts the first player. */
  function StartPlayback(m: Music): (r: Music)
    ensures r.isPlaying <==> m.isPlaying || m.playerCount > 0
    ensures m.playerCount == 0 || m.isPlaying ==> r == m
    ensures m.playerCount > 0 && !m.isPlaying ==> r.effects == m.effects + [StartPlayer]
    ensures r.enabled == m.enabled && r.playerCount == m.playerCount && r.store == m.store
    ensures Quiet(m) && m.enabled ==> Quiet(r)
  {
    if m.playerCount == 0 || m.isPlaying then m
    else m.(isPlaying := true, effects := m.effects + [StartPlayer])
  }

  /** `stopMusicPlayback`: a no-op unless playing; otherwise stops the player. */
  function StopPlayback(m: Music): (r: Music)
    ensures !r.isPlaying
    ensures !m.isPlaying ==> r == m
    ensures m.isPlaying ==> r.effects == m.effects + [StopPlayer]
    ensures r.enabled == m.enabled && r.playerCount == m.playerCount && r.store == m.store
    ensures Quiet(r)
  {
    if !m.isPlaying then m
    else m.(isPlaying := false, effects := m.effects + [StopPlayer])
  }

  /** `initMusic`: when the engine comes up the two players (synth and reverb) replace `musicPlayers`
      and playback starts if music is enabled; when it fails the error is only logged. */
  function InitMusic(m: Music, ok: bool): (r: Music)
    ensures |r.effects| > |m.effects| && r.effects[..|m.effects|] == m.effects
    ensures r.effects[|m.effects|] == InitEngine
    ensures !ok ==> r == m.(effects := m.effects + [InitEngine])
    ensures ok ==> r.playerCount == 2 && (r.isPlaying <==> m.isPlaying || m.enabled)
    // on success the player is started only when music is enabled and not already playing
    ensures ok ==> r.effects == m.effects + (if m.enabled && !m.isPlaying then [InitEngine, StartPlayer] else [InitEngine])
    ensures r.enabled == m.enabled && r.store == m.store
    ensures Quiet(m) ==> Quiet(r)
  {
    var called := m.(effects := m.effects + [InitEngine]);
    if !ok then called
    else
      var loaded := called.(playerCount := 2);
      if loaded.enabled then StartPlayback(loaded) else loaded
  }

  /** `toggleMusic`: flips and persists `musicEnabled`, then starts (initialising the engine when there
      are no players yet) or stops playback. */
  function ToggleMusic(m: Music, ok: bool): (r: Music)
    ensures r.enabled == !m.enabled
    ensures GetItem(r.store, MusicKey) == Some(Encode(r.enabled))
    ensures forall k :: k != MusicKey ==> GetItem(r.store, k) == GetItem(m.store, k)
    ensures |r.effects| >= |m.effects| && r.effects[..|m.effects|] == m.effects
    // switched off: nothing plays afterwards
    ensures !r.enabled ==> !r.isPlaying && r.playerCount == m.playerCount
    // ... by stopping the player when it was playing, and with no call into the library otherwise
    ensures !r.enabled && m.isPlaying ==> r.effects == m.effects + [StopPlayer]
    ensures !r.enabled && !m.isPlaying ==> r.effects == m.effects
    // switched on with players: playback runs, and the engine is not initialised again
    ensures r.enabled && m.playerCount > 0 ==> r.isPlaying && InitEngine !in r.effects[|m.effects|..]
    // ... and the player is started unless it was already playing
    ensures r.enabled && m.playerCount > 0 && !m.isPlaying ==> r.effects == m.effects + [StartPlayer]
    // switched on without players: the engine is initialised, and playback runs if it comes up
    ensures r.enabled && m.playerCount == 0 ==>
      |r.effects| > |m.effects| && r.effects[|m.effects|] == InitEngine && (ok ==> r.isPlaying)
    ensures Quiet(m) ==> Quiet(r)
  {
    var enabled := !m.enabled;
    var m1 := m.(enabled := enabled, store := SetItem(m.store, MusicKey, Encode(enabled)));
    if enabled then
      if m1.playerCount > 0 then StartPlayback(m1) else InitMusic(m1, ok)
    else
      StopPlayback(m1)
  }

  /** A page reload after a toggle comes back with the toggled preference. */
  lemma ReloadRestoresToggle(m: Music, ok: bool)
    ensures Boot(ToggleMusic(m, ok).store, true).music.enabled == ToggleMusic(m, ok).enabled
  {
    DecodeEncode(ToggleMusic(m, ok).enabled, true);
  }

  /** The preference is persisted: storage holds the string form of `musicEnabled`. */
  predicate Persisted(m: Music) {
    GetItem(m.store, MusicKey) == Some(Encode(m.enabled))
  }

  /** Toggling twice restores the preference, including on a first visit with nothing saved, and
      leaves it persisted; when it was already persisted, storage is as it was. */
  lemma ToggleTwice(m: Music, ok: bool, ok': bool)
    ensures ToggleMusic(ToggleMusic(m, ok), ok').enabled == m.enabled
    ensures ToggleMusic(ToggleMusic(m, ok), ok').store == m.store[MusicKey := Encode(m.enabled)]
    ensures Persisted(m) ==> ToggleMusic(ToggleMusic(m, ok), ok').store == m.store
  {
    var s := ToggleMusic(ToggleMusic(m, ok), ok').store;
    assert s == m.store[MusicKey := Encode(m.enabled)];
  }

  /** `initStrudelBackground` at page load. Without the audio library it returns before reading storage
      or attaching any listener; otherwise it reads the saved preference and arms the gesture listeners. */
  function Boot(store: Store, toneLoaded: bool): (s: Session)
    ensures !s.music.isPlaying && s.music.playerCount == 0 && s.music.effects == []
    ensures s.music.store == store
    ensures s.wired == toneLoaded
    ensures !toneLoaded ==> s.music.enabled
    ensures toneLoaded ==> (s.music.enabled <==> MusicKey !in store || store[MusicKey] == "true")
    ensures !s.userInteracted && !s.musicInitialized
    // the click, keydown and touchstart listeners are attached exactly when the audio library is there
    ensures s.armed == (if toneLoaded then {Click, KeyDown, TouchStart} else {})
  {
    if !toneLoaded then Session(Initial(store), false, false, false, {})
    else
      var m := Initial(store);
      var m' := m.(enabled := Decode(GetItem(store, MusicKey), m.enabled));
      Session(m', true, false, false, {Click, KeyDown, TouchStart})
  }

  /** The `startMusic` gesture handler: on the first gesture while music is enabled, initialise the
      engine unless that was already done. */
  function StartMusic(s: Session, ok: bool): (r: Session)
    ensures s.userInteracted || !s.music.enabled ==> r == s
    ensures !s.userInteracted && s.music.enabled ==> r.userInteracted && r.musicInitialized
    ensures s.musicInitialized ==> r.music == s.music
    ensures !s.userInteracted && s.music.enabled && !s.musicInitialized ==>
      r.music == InitMusic(s.music, ok)
    ensures r.wired == s.wired && r.armed == s.armed
    ensures Quiet(s.music) ==> Quiet(r.music)
  {
    if !s.userInteracted && s.music.enabled then
      var s1 := s.(userInteracted := true);
      if !s1.musicInitialized then s1.(musicInitialized := true, music := InitMusic(s1.music, ok)) else s1
    else s
  }

  /** The music button's second click listener: initialise the engine unless that was already done. */
  function ButtonInit(s: Session, ok: bool): (r: Session)
    ensures r.musicInitialized
    ensures s.musicInitialized ==> r == s
    ensures !s.musicInitialized ==> r.music == InitMusic(s.music, ok)
    ensures r.wired == s.wired && r.userInteracted == s.userInteracted && r.armed == s.armed
    ensures Quiet(s.music) ==> Quiet(r.music)
  {
    if !s.musicInitialized then s.(musicInitialized := true, music := InitMusic(s.music, ok)) else s
  }

  /** A one-shot gesture listener: runs `startMusic` once and detaches itself. */
  function Gestured(s: Session, g: Gesture, ok: bool): (r: Session)
    ensures g !in s.armed ==> r == s
    ensures r.armed == s.armed - {g}
    // an attached listener runs `startMusic`: the first gesture while music is enabled marks the
    // user as interacted, and initialises the engine unless that was already done
    ensures g in s.armed ==> (r.userInteracted <==> s.userInteracted || s.music.enabled)
    // once the user has interacted, or while music is disabled, the listener only detaches
    ensures g in s.armed && (s.userInteracted || !s.music.enabled) ==> r == s.(armed := s.armed - {g})
    // the engine is initialised at most once through these listeners
    ensures g in s.armed && s.musicInitialized ==> r.music == s.music
    ensures g in s.armed && !s.userInteracted && s.music.enabled ==> r.musicInitialized
    ensures g in s.armed && !s.userInteracted && s.music.enabled && !s.musicInitialized ==>
      r.music == InitMusic(s.music, ok)
    ensures Quiet(s.music) ==> Quiet(r.music)
  {
    if g in s.armed then StartMusic(s.(armed := s.armed - {g}), ok) else s
  }

  /** One event. A click on the music button runs the button's two listeners in the order they were
      attached, `toggleMusic` and then the initialiser, and then bubbles to the document's click listener. */
  function Apply(s: Session, e: Event): (r: Session)
    ensures !s.wired ==> r == s
    ensures r.wired == s.wired
    ensures Quiet(s.music) ==> Quiet(r.music)
  {
    if !s.wired then s
    else
      match e
      case ButtonClick(ok) =>
        var toggled := s.(music := ToggleMusic(s.music, ok));
        Gestured(ButtonInit(toggled, ok), Click, ok)
      case PageGesture(g, ok) => Gestured(s, g, ok)
  }

  /** The session after a sequence of events, in order. */
  function Replay(s: Session, events: seq<Event>): Session
    decreases |events|
  {
    if events == [] then s else Replay(Apply(s, events[0]), events[1..])
  }

  /** Whatever the user does, music plays only while it is enabled and a player exists. */
  lemma {:induction false} NeverPlaysWhenDisabled(s: Session, events: seq<Event>)
    requires Quiet(s.music)
    ensures Quiet(Replay(s, events).music)
    decreases |events|
  {
    if events != [] {
      NeverPlaysWhenDisabled(Apply(s, events[0]), events[1..]);
    }
  }

  /** From any page load, music plays only while it is enabled. */
  lemma PlaysOnlyWhenEnabled(store: Store, toneLoaded: bool, events: seq<Event>)
    ensures var m := Replay(Boot(store, toneLoaded), events).music;
      m.isPlaying ==> m.enabled && m.playerCount > 0
  {
    NeverPlaysWhenDisabled(Boot(store, toneLoaded), events);
  }

  /** On the page, with music enabled or nothing saved, the first gesture of any kind initialises the
      audio engine, and a later gesture of any kind leaves the music alone. */
  lemma FirstGestureStartsEngine(store: Store, g: Gesture, g2: Gesture, ok: bool, ok2: bool)
    requires MusicKey !in store || store[MusicKey] == "true"
    ensures var b := Boot(store, true);
      var s := Apply(b, PageGesture(g, ok));
      && s.music == InitMusic(b.music, ok)
      && s.userInteracted && s.musicInitialized
      && Apply(s, PageGesture(g2, ok2)).music == s.music
  {
    var b := Boot(store, true);
    assert g in b.armed;
    var s := Apply(b, PageGesture(g, ok));
    assert s.userInteracted && s.musicInitialized;
  }

  /** A click on the music button flips the preference and persists it, in both directions. */
  lemma ButtonClickToggles(s: Session, ok: bool)
    requires s.wired
    ensures Apply(s, ButtonClick(ok)).music.enabled == !s.music.enabled
    ensures Persisted(Apply(s, ButtonClick(ok)).music)
    ensures forall k :: k != MusicKey ==> GetItem(Apply(s, ButtonClick(ok)).music.store, k) == GetItem(s.music.store, k)
  {
  }

  /** After a click on the music button that switches music off, nothing is playing. */
  lemma ButtonOffSilences(s: Session, ok: bool)
    requires s.wired && s.music.enabled
    ensures !Apply(s, ButtonClick(ok)).music.enabled
    ensures !Apply(s, ButtonClick(ok)).music.isPlaying
  {
  }

  /** `toggleMusic` does not check `musicInitialized`: with music saved as off, the first click on the
      music button initialises the engine twice, once from the toggle and once from the second listener.
      Only one player start happens, because the `isPlaying` guard stops the second; the order of the
      calls is not stated (the two `initMusic` calls overlap in the page). */
  lemma InitMayRunTwice()
    ensures var s := Apply(Boot(map[MusicKey := "false"], true), ButtonClick(true));
      && multiset(s.music.effects) == multiset{InitEngine, InitEngine, StartPlayer}
      && s.music.enabled && s.music.isPlaying && s.music.playerCount == 2
  {
    var b := Boot(map[MusicKey := "false"], true);
    assert !b.music.enabled;
  }
}

=== FILE: navigation.dfy ===
/**
  Scroll-based navigation highlighting (`updateActiveNav` in script.js).

  For every `section[id]` the page reads its `offsetTop` and `offsetHeight`, and
  marks the matching `.nav-link` active exactly when the scroll offset lies in the
  section's window, which starts 100px above the section. Each section is decided
  on its own. The navbar also gets a drop shadow once the page is scrolled past 50px.
*/
module Navigation {

  /** The layout of one `section[id]`, as the DOM reports it. */
  datatype Section = Section(offsetTop: int, offsetHeight: int)

  /** What `updateActiveNav` leaves on the page: one `active` flag per section's nav link, and the navbar shadow. */
  datatype NavState = NavState(active: seq<bool>, shadow: bool)

  /** How far above a section its window starts. */
  const HeaderOffset := 100
  /** Scroll offset beyond which the navbar has a shadow. */
  const ShadowThreshold := 50

  /** A half-open interval `(lo, hi]` of scroll offsets. */
  datatype Window = Window(lo: int, hi: int)

  /** The scroll offsets at which a section's link is active. */
  function WindowOf(s: Section): Window {
    Window(s.offsetTop - HeaderOffset, s.offsetTop - HeaderOffset + s.offsetHeight)
  }

  predicate Contains(w: Window, y: int) {
    w.lo < y <= w.hi
  }

  /** Two windows without a common scroll offset, decided on their bounds. */
  predicate Disjoint(a: Window, b: Window) {
    a.hi <= a.lo || b.hi <= b.lo || a.hi <= b.lo || b.hi <= a.lo
  }

  /** `Disjoint` means exactly that no scroll offset lies in both windows. */
  lemma DisjointMeansNoCommonOffset(a: Window, b: Window)
    ensures Disjoint(a, b) <==> forall y :: !(Contains(a, y) && Contains(b, y))
  {
    if !Disjoint(a, b) {
      var y := if a.lo < b.lo then b.lo + 1 else a.lo + 1;
      assert Contains(a, y) && Contains(b, y);
    }
  }

  /** The sections' windows are pairwise disjoint. */
  predicate PairwiseDisjoint(sections: seq<Section>) {
    forall i, j :: 0 <= i < j < |sections| ==> Disjoint(WindowOf(sections[i]), WindowOf(sections[j]))
  }

  /** The `active` flags of the links, one per section in document order (the `forEach` loop). */
  function ActiveFlags(scrollY: int, sections: seq<Section>): (r: seq<bool>)
    ensures |r| == |sections|
    ensures forall i :: 0 <= i < |sections| ==> (r[i] <==> Contains(WindowOf(sections[i]), scrollY))
  {
    if sections == [] then []
    else
      var sectionHeight := sections[0].offsetHeight;
      var sectionTop := sections[0].offsetTop - HeaderOffset;
      [scrollY > sectionTop && scrollY <= sectionTop + sectionHeight] + ActiveFlags(scrollY, sections[1..])
  }

  /** One call of `updateActiveNav` with the page scrolled to `scrollY`. */
  function UpdateActiveNav(scrollY: int, sections: seq<Section>): (r: NavState)
    ensures |r.active| == |sections|
    ensures forall i :: 0 <= i < |sections| ==>
      (r.active[i] <==> sections[i].offsetTop - HeaderOffset < scrollY <= sections[i].offsetTop - HeaderOffset + sections[i].offsetHeight)
    ensures r.shadow <==> scrollY > ShadowThreshold
  {
    NavState(ActiveFlags(scrollY, sections), scrollY > ShadowThreshold)
  }

  /** Number of `true` entries. */
  function CountTrue(flags: seq<bool>): nat {
    if flags == [] then 0 else (if flags[0] then 1 else 0) + CountTrue(flags[1..])
  }

  /** With no section `y` lies in, no link is active. */
  lemma {:induction false} NoneActive(scrollY: int, sections: seq<Section>)
    requires forall i :: 0 <= i < |sections| ==> !Contains(WindowOf(sections[i]), scrollY)
    ensures CountTrue(ActiveFlags(scrollY, sections)) == 0
  {
    if sections != [] {
      NoneActive(scrollY, sections[1..]);
      assert ActiveFlags(scrollY, sections)[1..] == ActiveFlags(scrollY, sections[1..]);
    }
  }

  /** When the sections' windows do not overlap, at most one link is active at any scroll offset. */
  lemma {:induction false} AtMostOneActive(scrollY: int, sections: seq<Section>)
    requires PairwiseDisjoint(sections)
    ensures CountTrue(UpdateActiveNav(scrollY, sections).active) <= 1
  {
    if sections != [] {
      var flags := ActiveFlags(scrollY, sections);
      var rest := sections[1..];
      assert flags[1..] == ActiveFlags(scrollY, rest);
      assert PairwiseDisjoint(rest) by {
        forall i, j | 0 <= i < j < |rest|
          ensures Disjoint(WindowOf(rest[i]), WindowOf(rest[j]))
        {
          assert rest[i] == sections[i + 1] && rest[j] == sections[j + 1];
        }
      }
      if flags[0] {
        forall i | 0 <= i < |rest|
          ensures !Contains(WindowOf(rest[i]), scrollY)
        {
          assert rest[i] == sections[i + 1];
          DisjointMeansNoCommonOffset(WindowOf(sections[0]), WindowOf(sections[i + 1]));
        }
        NoneActive(scrollY, rest);
      } else {
        AtMostOneActive(scrollY, rest);
      }
    }
  }

  /** Sections stacked down the page, each starting no higher than where the previous one ends. */
  predicate Stacked(sections: seq<Section>) {
    forall i :: 0 <= i < |sections| - 1 ==>
      sections[i].offsetTop + sections[i].offsetHeight <= sections[i + 1].offsetTop
  }

  /** In a stacked layout of non-negative heights each later window starts where the earlier one ends or below. */
  lemma {:induction false} StackedWindowsOrdered(sections: seq<Section>, i: int, j: int)
    requires Stacked(sections)
    requires forall k :: 0 <= k < |sections| ==> sections[k].offsetHeight >= 0
    requires 0 <= i < j < |sections|
    ensures WindowOf(sections[i]).hi <= WindowOf(sections[j]).lo
    decreases j - i
  {
    if j > i + 1 {
      StackedWindowsOrdered(sections, i + 1, j);
      assert sections[i].offsetTop + sections[i].offsetHeight <= sections[i + 1].offsetTop;
    }
  }

  /** A stacked page layout has pairwise disjoint windows, so at most one link is ever active. */
  lemma StackedIsDisjoint(sections: seq<Section>)
    requires Stacked(sections)
    requires forall k :: 0 <= k < |sections| ==> sections[k].offsetHeight >= 0
    ensures PairwiseDisjoint(sections)
  {
    forall i, j | 0 <= i < j < |sections|
      ensures Disjoint(WindowOf(sections[i]), WindowOf(sections[j]))
    {
      StackedWindowsOrdered(sections, i, j);
    }
  }

  /** Each section is decided on its own: highlighting a concatenated list is highlighting each part. */
  lemma {:induction false} DecidedPerSection(scrollY: int, a: seq<Section>, b: seq<Section>)
    ensures ActiveFlags(scrollY, a + b) == ActiveFlags(scrollY, a) + ActiveFlags(scrollY, b)
  {
    if a != [] {
      assert (a + b)[1..] == a[1..] + b;
      DecidedPerSection(scrollY, a[1..], b);
    }
  }

  /** Overlapping windows can light up two links at once, which the page accepts. */
  lemma OverlapMayHighlightTwo()
    ensures UpdateActiveNav(150, [Section(0, 300), Section(200, 300)]).active == [true, true]
  {
  }

  /** The window is open at its lower bound and closed at its upper bound. */
  lemma WindowBounds(s: Section)
    requires s.offsetHeight > 0
    ensures !UpdateActiveNav(s.offsetTop - HeaderOffset, [s]).active[0]
    ensures UpdateActiveNav(s.offsetTop - HeaderOffset + s.offsetHeight, [s]).active[0]
  {
  }
}

=== FILE: options.dfy ===
/** The JavaScript `null`-or-value shape used for storage reads and pending timers. */
module Options {
  datatype Option<+T> = None | Some(value: T)
}

=== FILE: storage.dfy ===
/** The page's per-origin `localStorage`, as a map from keys to string values. */
module Storage {
  import opened Options

  type Store = map<string, string>

  /** `localStorage.getItem(key)`: the stored string, or `null` (None) when the key is absent. */
  function GetItem(s: Store, key: string): (r: Option<string>)
    ensures r.Some? <==> key in s
    ensures r.Some? ==> r.value == s[key]
  {
    if key in s then Some(s[key]) else None
  }

  /** `localStorage.setItem(key, value)`: overwrites one key and leaves every other key alone. */
  function SetItem(s: Store, key: string, value: string): (r: Store)
    ensures GetItem(r, key) == Some(value)
    ensures forall k :: k != key ==> GetItem(r, k) == GetItem(s, k)
    ensures r.Keys == s.Keys + {key}
  {
    s[key := value]
  }
}

=== FILE: theme.dfy ===
/**
  The light/dark theme switch of script.js.

  At load the page reads the `theme` key from storage, falling back to `'light'`,
  and sets it as the `data-theme` attribute of `<html>`. The toggle button reads
  the attribute back, flips it, and writes the new value to both the attribute
  and storage. The icon glyph is presentation and is not modelled.
*/
module Theme {
  import opened Options
  import opened Storage

  const ThemeKey := "theme"
  const Light := "light"
  const Dark := "dark"

  /** The state the theme lives in: the `data-theme` attribute of `<html>`, and storage. */
  datatype Page = Page(theme: string, store: Store)

  /** JavaScript's `value || fallback` for a string-or-null: an absent or empty string is falsy. */
  function OrElse(value: Option<string>, fallback: string): (r: string)
    ensures value.Some? && value.value != "" ==> r == value.value
    ensures value.None? || value.value == "" ==> r == fallback
  {
    match value
    case Some(v) => if v != "" then v else fallback
    case None => fallback
  }

  /** The theme applied at page load. */
  function Load(store: Store): (p: Page)
    ensures p.store == store
    ensures p.theme != ""
    ensures ThemeKey in store && store[ThemeKey] != "" ==> p.theme == store[ThemeKey]
    ensures ThemeKey !in store || store[ThemeKey] == "" ==> p.theme == Light
  {
    Page(OrElse(GetItem(store, ThemeKey), Light), store)
  }

  /** The toggle button's click handler. */
  function Toggle(p: Page): (r: Page)
    // 'dark' becomes 'light'; anything else becomes 'dark'
    ensures r.theme == Dark <==> p.theme != Dark
    ensures r.theme == Light || r.theme == Dark
    ensures r.theme != p.theme
    // the attribute and storage agree afterwards, and no other key is touched
    ensures GetItem(r.store, ThemeKey) == Some(r.theme)
    ensures forall k :: k != ThemeKey ==> GetItem(r.store, k) == GetItem(p.store, k)
  {
    var currentTheme := p.theme;
    var newTheme := if currentTheme == Dark then Light else Dark;
    Page(newTheme, SetItem(p.store, ThemeKey, newTheme))
  }

  /** The attribute and the stored value agree. */
  predicate Persisted(p: Page) {
    GetItem(p.store, ThemeKey) == Some(p.theme)
  }

  /** A reload after a toggle shows the toggled theme: what the click handler stores, the load reads back. */
  lemma ReloadRestoresToggle(p: Page)
    ensures Load(Toggle(p).store) == Toggle(p)
  {
  }

  /** Toggling twice from 'light' or 'dark' restores the theme and persists it; on a page
      whose storage already holds the theme, it is the identity. */
  lemma ToggleTwice(p: Page)
    requires p.theme == Light || p.theme == Dark
    ensures Toggle(Toggle(p)).theme == p.theme
    ensures Persisted(Toggle(Toggle(p)))
    ensures Persisted(p) ==> Toggle(Toggle(p)) == p
  {
    if Persisted(p) {
      assert Toggle(Toggle(p)).store == p.store[ThemeKey := p.theme];
      assert p.store[ThemeKey := p.theme] == p.store;
    }
  }

  /** A stored value other than 'light' or 'dark' is not restored by two toggles: it ends as 'light'. */
  lemma ToggleTwiceFromOther(p: Page)
    requires p.theme != Light && p.theme != Dark
    ensures Toggle(Toggle(p)).theme == Light
  {
  }

  /** The theme after `k` clicks on the toggle. */
  function ToggleTimes(p: Page, k: nat): Page
    decreases k
  {
    if k == 0 then p else Toggle(ToggleTimes(p, k - 1))
  }

  /** After `k >= 1` clicks the theme is 'dark' exactly when an odd number of clicks started from a
      non-dark theme, or an even number from 'dark'; and it is persisted. */
  lemma {:induction false} ToggleParity(p: Page, k: nat)
    requires k >= 1
    ensures ToggleTimes(p, k).theme == Dark <==> (k % 2 == 1 <==> p.theme != Dark)
    ensures ToggleTimes(p, k).theme == Light || ToggleTimes(p, k).theme == Dark
    ensures Persisted(ToggleTimes(p, k))
  {
    if k > 1 {
      ToggleParity(p, k - 1);
    }
  }
}

=== FILE: typewriter.dfy ===
/**
  The typing animation of the hero section (`typeText` in script.js).

  The animator keeps three globals, `phraseIndex`, `charIndex` and `isDeleting`,
  over a fixed list of phrases. Each call of `typeText` renders a prefix of the
  current phrase, moves `charIndex` by one, and reschedules itself with
  `setTimeout` after a delay that depends on what just happened. Here one call
  is the pure function `Step`, and the self-rescheduling loop is `Run`, the
  iterated application of `Step`.
*/
module Typewriter {

  /** The animator's state: `phraseIndex`, `charIndex`, `isDeleting`. */
  datatype Cursor = Cursor(phraseIndex: int, charIndex: int, isDeleting: bool)

  /** One call of `typeText`: the text it renders, the state it leaves and the delay it passes to `setTimeout`. */
  datatype Tick = Tick(text: string, next: Cursor, delay: int)

  /** Delay after typing one character. */
  const TypeDelay := 100
  /** Delay after deleting one character. */
  const DeleteDelay := 50
  /** Pause once a phrase has been typed in full. */
  const FullPause := 2000
  /** Pause once a phrase has been deleted, before the next one starts. */
  const NextPause := 500

  /** The commands the page types, in order. */
  const Phrases: seq<string> := [
    "npm install awesome-project",
    "git commit -m \"Initial commit\"",
    "docker-compose up",
    "npm run dev",
    "code --version"
  ]

  /** The state the globals are initialised to. */
  const Start := Cursor(0, 0, false)

  /** A non-empty list of non-empty phrases. */
  predicate WellFormed(phrases: seq<string>) {
    |phrases| > 0 && forall i :: 0 <= i < |phrases| ==> |phrases[i]| > 0
  }

  /** `phrases[phraseIndex]` exists (otherwise `typeText` would throw). */
  predicate InRange(phrases: seq<string>, c: Cursor) {
    0 <= c.phraseIndex < |phrases|
  }

  /** The bounds invariant of the animation: while typing, some character is still to be typed;
      while deleting, some character is still to be deleted. */
  predicate Valid(phrases: seq<string>, c: Cursor) {
    && InRange(phrases, c)
    && var len := |phrases[c.phraseIndex]|;
       if c.isDeleting then 1 <= c.charIndex <= len else 0 <= c.charIndex < len
  }

  /** JavaScript's `s.substring(0, end)`: the end index is clamped into `[0, |s|]`. */
  function Prefix(s: string, end: int): (r: string)
    ensures |r| == if end <= 0 then 0 else if end >= |s| then |s| else end
    ensures r == s[..|r|]
  {
    if end <= 0 then [] else if end >= |s| then s else s[..end]
  }

  /** One call of `typeText` from state `c`. */
  function Step(phrases: seq<string>, c: Cursor): (t: Tick)
    requires InRange(phrases, c)
    ensures InRange(phrases, t.next)
    // the rendered text is the first `charIndex` characters of the phrase current at the start
    ensures t.text == Prefix(phrases[c.phraseIndex], t.next.charIndex)
    ensures t.next.charIndex == (if c.isDeleting then c.charIndex - 1 else c.charIndex + 1)
    // the bounds invariant is preserved
    ensures WellFormed(phrases) && Valid(phrases, c) ==> Valid(phrases, t.next)
    ensures Valid(phrases, c) ==> 0 <= t.next.charIndex <= |phrases[c.phraseIndex]| && |t.text| == t.next.charIndex
    // the phrase changes only on the short pause, and then to the next one, wrapping after the last
    ensures t.delay != NextPause ==> t.next.phraseIndex == c.phraseIndex
    ensures t.delay == NextPause ==>
      t.next.phraseIndex == (if c.phraseIndex + 1 < |phrases| then c.phraseIndex + 1 else 0)
  {
    var phrase := phrases[c.phraseIndex];
    var text := if c.isDeleting then Prefix(phrase, c.charIndex - 1) else Prefix(phrase, c.charIndex + 1);
    var charIndex := if c.isDeleting then c.charIndex - 1 else c.charIndex + 1;
    var speed := if c.isDeleting then DeleteDelay else TypeDelay;
    if !c.isDeleting && charIndex == |phrase| then
      Tick(text, Cursor(c.phraseIndex, charIndex, true), FullPause)
    else if c.isDeleting && charIndex == 0 then
      Tick(text, Cursor((c.phraseIndex + 1) % |phrases|, charIndex, false), NextPause)
    else
      Tick(text, Cursor(c.phraseIndex, charIndex, c.isDeleting), speed)
  }

  /** A tick from a valid state: the text is the phrase cut at the new `charIndex`, and the delay
      rules read off what the tick rendered. */
  lemma StepDelays(phrases: seq<string>, c: Cursor)
    requires Valid(phrases, c)
    ensures var t := Step(phrases, c); var phrase := phrases[c.phraseIndex];
      && 0 <= t.next.charIndex <= |phrase|
      && t.text == phrase[..t.next.charIndex]
      // the long pause comes exactly when the whole phrase has just been typed
      && (t.delay == FullPause <==> !c.isDeleting && t.text == phrase)
      // the short pause comes exactly when the phrase has just been deleted
      && (t.delay == NextPause <==> c.isDeleting && t.text == [])
      // otherwise 50 while deleting and 100 while typing
      && (t.delay == DeleteDelay <==> c.isDeleting && t.text != [])
      && (t.delay == TypeDelay <==> !c.isDeleting && t.text != phrase)
      // the mode switches to deleting on the long pause and back to typing on the short one
      && (t.next.isDeleting <==> t.delay == FullPause || t.delay == DeleteDelay)
  {
  }

  /** The state after `k` calls of `typeText`, each scheduled by the previous one. */
  function Run(phrases: seq<string>, c: Cursor, k: nat): (r: Cursor)
    requires InRange(phrases, c)
    ensures InRange(phrases, r)
    ensures WellFormed(phrases) && Valid(phrases, c) ==> Valid(phrases, r)
    decreases k
  {
    if k == 0 then c else Run(phrases, Step(phrases, c).next, k - 1)
  }

  /** The animation never leaves its bounds: every state reached from the start is valid. */
  lemma {:induction false} AlwaysValid(phrases: seq<string>, k: nat)
    requires WellFormed(phrases)
    ensures Valid(phrases, Run(phrases, Start, k))
  {
  }

  /** The `k+1`-th state is one step after the `k`-th. */
  lemma {:induction false} RunLast(phrases: seq<string>, c: Cursor, k: nat)
    requires InRange(phrases, c)
    ensures Run(phrases, c, k + 1) == Step(phrases, Run(phrases, c, k)).next
    decreases k
  {
    if k > 0 {
      RunLast(phrases, Step(phrases, c).next, k - 1);
    }
  }

  /** Running `a` ticks and then `b` more is running `a + b` ticks. */
  lemma {:induction false} RunAdd(phrases: seq<string>, c: Cursor, a: nat, b: nat)
    requires InRange(phrases, c)
    ensures Run(phrases, c, a + b) == Run(phrases, Run(phrases, c, a), b)
    decreases a
  {
    if a > 0 {
      RunAdd(phrases, Step(phrases, c).next, a - 1, b);
    }
  }

  /** Reference description of one type-then-delete cycle of phrase `p` (length `L`):
      the state before tick `i`, for `0 <= i <= 2L`. */
  function CycleState(phrases: seq<string>, p: int, i: int): Cursor
    requires 0 <= p < |phrases| && 0 <= i <= 2 * |phrases[p]|
  {
    var len := |phrases[p]|;
    if i < len then Cursor(p, i, false)
    else if i < 2 * len then Cursor(p, 2 * len - i, true)
    else Cursor((p + 1) % |phrases|, 0, false)
  }

  /** Reference description of the text shown by tick `i` of the cycle: the phrase grows
      one character per tick up to its full length, then shrinks back to nothing. */
  function CycleText(phrase: string, i: int): string
    requires 0 <= i < 2 * |phrase|
  {
    if i < |phrase| then phrase[..i + 1] else phrase[..2 * |phrase| - 1 - i]
  }

  /** Reference description of the delay after tick `i` of the cycle. */
  function CycleDelay(len: int, i: int): int {
    if i < len - 1 then TypeDelay
    else if i == len - 1 then FullPause
    else if i < 2 * len - 1 then DeleteDelay
    else NextPause
  }

  /** Starting to type phrase `p`, the animation follows the reference cycle tick by tick. */
  lemma {:induction false} CycleFollowsReference(phrases: seq<string>, p: int, i: nat)
    requires WellFormed(phrases) && 0 <= p < |phrases| && i <= 2 * |phrases[p]|
    ensures Run(phrases, Cursor(p, 0, false), i) == CycleState(phrases, p, i)
    ensures i < 2 * |phrases[p]| ==>
      Step(phrases, Run(phrases, Cursor(p, 0, false), i)) ==
      Tick(CycleText(phrases[p], i), CycleState(phrases, p, i + 1), CycleDelay(|phrases[p]|, i))
  {
    var c := Cursor(p, 0, false);
    if i > 0 {
      CycleFollowsReference(phrases, p, i - 1);
      RunLast(phrases, c, i - 1);
    }
  }

  /** One full cycle: exactly `2L` ticks after starting phrase `p` the animation starts the next
      phrase, and no state in between belongs to another phrase. */
  lemma FullCycle(phrases: seq<string>, p: int)
    requires WellFormed(phrases) && 0 <= p < |phrases|
    ensures Run(phrases, Cursor(p, 0, false), 2 * |phrases[p]|) == Cursor((p + 1) % |phrases|, 0, false)
    ensures forall i :: 0 <= i < 2 * |phrases[p]| ==> Run(phrases, Cursor(p, 0, false), i).phraseIndex == p
  {
    CycleFollowsReference(phrases, p, 2 * |phrases[p]|);
    forall i | 0 <= i < 2 * |phrases[p]|
      ensures Run(phrases, Cursor(p, 0, false), i).phraseIndex == p
    {
      CycleFollowsReference(phrases, p, i);
    }
  }

  /** The phrase of the `k`-th cycle when the list is walked in order, wrapping after the last phrase. */
  function CyclePhrase(phrases: seq<string>, k: nat): (p: int)
    requires |phrases| > 0
    ensures 0 <= p < |phrases|
  {
    if k == 0 then 0
    else if CyclePhrase(phrases, k - 1) + 1 < |phrases| then CyclePhrase(phrases, k - 1) + 1
    else 0
  }

  /** Walking the list in order and wrapping is counting modulo the number of phrases. */
  lemma {:induction false} CyclePhraseIsMod(phrases: seq<string>, k: nat)
    requires |phrases| > 0
    ensures CyclePhrase(phrases, k) == k % |phrases|
  {
    var n := |phrases|;
    if k == 0 {
      DivModUnique(0, n, 0, 0);
    } else {
      CyclePhraseIsMod(phrases, k - 1);
      var r := (k - 1) % n;
      ModSucc(k, n);
      if r + 1 < n {
        DivModUnique(r + 1, n, 0, r + 1);
      } else {
        DivModUnique(r + 1, n, 1, 0);
      }
    }
  }

  /** The tick at which the animation starts its `k`-th phrase (counting from 0, cyclically). */
  function CycleStart(phrases: seq<string>, k: nat): nat
    requires |phrases| > 0
  {
    if k == 0 then 0 else CycleStart(phrases, k - 1) + 2 * |phrases[CyclePhrase(phrases, k - 1)]|
  }

  /** Once the animation is at the start of phrase `p`, one cycle later it is at the start of the next. */
  lemma NextCycle(phrases: seq<string>, c: Cursor, s: nat, p: int)
    requires WellFormed(phrases) && InRange(phrases, c) && 0 <= p < |phrases|
    requires Run(phrases, c, s) == Cursor(p, 0, false)
    ensures Run(phrases, c, s + 2 * |phrases[p]|) == Cursor(if p + 1 < |phrases| then p + 1 else 0, 0, false)
  {
    RunAdd(phrases, c, s, 2 * |phrases[p]|);
    CycleFollowsReference(phrases, p, 2 * |phrases[p]|);
    if p + 1 < |phrases| {
      DivModUnique(p + 1, |phrases|, 0, p + 1);
    } else {
      DivModUnique(p + 1, |phrases|, 1, 0);
    }
  }

  /** From the initial state, phrases are visited in list order, cyclically: the `k`-th cycle
      starts the `k`-th phrase of the wrapped walk with nothing typed. */
  lemma {:induction false} VisitsInOrder(phrases: seq<string>, k: nat)
    requires WellFormed(phrases)
    ensures Run(phrases, Start, CycleStart(phrases, k)) == Cursor(CyclePhrase(phrases, k), 0, false)
  {
    if k > 0 {
      var p := CyclePhrase(phrases, k - 1);
      var s := CycleStart(phrases, k - 1);
      VisitsInOrder(phrases, k - 1);
      NextCycle(phrases, Start, s, p);
    }
  }

  /** Every tick of the `k`-th cycle works on that cycle's phrase. */
  lemma PhraseDuringCycle(phrases: seq<string>, k: nat, i: nat)
    requires WellFormed(phrases)
    requires CycleStart(phrases, k) <= i < CycleStart(phrases, k + 1)
    ensures Run(phrases, Start, i).phraseIndex == CyclePhrase(phrases, k)
  {
    var s := CycleStart(phrases, k);
    VisitsInOrder(phrases, k);
    RunAdd(phrases, Start, s, i - s);
    FullCycle(phrases, CyclePhrase(phrases, k));
  }

  /** The two-phrase trace `["ab", "c"]`: "a", "ab" (pause), "a", "" (pause), "c" (pause), "" (pause). */
  lemma TwoPhraseExample()
    ensures var ps := ["ab", "c"];
      && Step(ps, Run(ps, Start, 0)) == Tick("a", Cursor(0, 1, false), TypeDelay)
      && Step(ps, Run(ps, Start, 1)) == Tick("ab", Cursor(0, 2, true), FullPause)
      && Step(ps, Run(ps, Start, 2)) == Tick("a", Cursor(0, 1, true), DeleteDelay)
      && Step(ps, Run(ps, Start, 3)) == Tick("", Cursor(1, 0, false), NextPause)
      && Step(ps, Run(ps, Start, 4)) == Tick("c", Cursor(1, 1, true), FullPause)
      && Step(ps, Run(ps, Start, 5)) == Tick("", Cursor(0, 0, false), NextPause)
  {
    var ps := ["ab", "c"];
    assert ps[0][..1] == "a";
    assert ps[0][..2] == "ab";
    assert ps[1][..1] == "c";
  }

  /** The page's own phrase list meets the animation's assumptions. */
  lemma PhrasesWellFormed()
    ensures WellFormed(Phrases)
  {
  }

  // Arithmetic facts about `%` used by the cycle lemmas.

  /** Stepping past `(k - 1) mod n` and wrapping lands on `k mod n`. */
  lemma ModSucc(k: nat, n: int)
    requires n > 0 && k > 0
    ensures ((k - 1) % n + 1) % n == k % n
  {
    var q, r := (k - 1) / n, (k - 1) % n;
    assert k == q * n + r + 1;
    if r + 1 < n {
      DivModUnique(k, n, q, r + 1);
    } else {
      DivModUnique(k, n, q + 1, 0);
    }
  }

  /** The remainder is unique: writing `k` as `q * n + r` with `0 <= r < n` gives `k mod n == r`. */
  lemma DivModUnique(k: int, n: int, q: int, r: int)
    requires n > 0 && 0 <= r < n && k == q * n + r
    ensures k % n == r
  {
    var q', r' := k / n, k % n;
    assert (q - q') * n == r' - r by {
      assert q * n - q' * n == (q - q') * n;
    }
    if q > q' {
      MulAtLeast(q - q', n);
    } else if q < q' {
      MulAtLeast(q' - q, n);
    }
  }

  /** A positive multiple of `n` is at least `n`. */
  lemma MulAtLeast(d: int, n: int)
    requires d >= 1 && n > 0
    ensures d * n >= n
  {
    assert d * n == (d - 1) * n + n;
  }
}
